=== FILE: README.md ===
# Proteus unique-id allocator in Dafny

This project models `IdGeneratorImpl`, the allocator that the Proteus layout
engine uses to turn string id keys from a layout into integer Android view
ids. The allocator holds a table from keys to ids and a counter. `getUnique`
returns the id already recorded for a key. For a new key it takes the counter
value as the id, records it, and advances the counter. The counter stays below
the build-time resource ids, whose high byte is non-zero: past `0x00FFFFFF` it
rolls over to 1, never to 0. The allocator can be written to an Android parcel
and rebuilt from one.

Modules:

- `JavaInt` (`java_int.dfy`): Java's 32-bit `int` and its wrapping `+`.
- `IdGenerator` (`id_generator.dfy`): the state `Generator(next, ids)`, the
  default constructor, `generateViewId` and `getUnique` as pure functions, and
  the lemmas about a single call.
- `IdParcel` (`parcel.dfy`): `writeToParcel` and the parcel constructor, over a
  parcel modelled as a sequence of typed tokens. Also the round-trip proof.
- `AllocationRuns` (`allocation_runs.dfy`): a sequence of `getUnique` calls,
  id uniqueness before the counter wraps, and behaviour after a restore.

The Java class guards `getUnique` with `synchronized` and advances the counter
with a compare-and-set retry loop. Both exist only for thread safety. Run
sequentially, the compare-and-set succeeds on its first attempt, so each call
is modelled as one state transition.

The parcel constructor accepts any counter it reads (`IdGeneratorImpl.java`
line 32). `AllocationRuns.RestoredCounterCanIssueZero` shows that a restored
counter of -1 issues id 0. For that reason every range property is stated
under the precondition that the counter is in range.

## Model

| member | source | states |
|---|---|---|
| `JavaInt.Add` | library/src/main/java/com/flipkart/android/proteus/toolbox/IdGeneratorImpl.java:93 | Java `int` addition: the exact sum when it fits in 32 bits, otherwise the sum shifted by 2^32 into range |
| `IdGenerator.Fresh` | library/src/main/java/com/flipkart/android/proteus/toolbox/IdGeneratorImpl.java:24-29 | a new allocator has an empty table, satisfies both the range and the no-wrap invariants, and issues id 1 first for any key |
| `IdGenerator.GenerateViewId` | library/src/main/java/com/flipkart/android/proteus/toolbox/IdGeneratorImpl.java:88-101 | the id returned is the counter before the step. Below `0x00FFFFFF` the counter goes up by one. From `0x00FFFFFF` up to `Integer.MAX_VALUE - 1` it rolls over to 1. From `Integer.MAX_VALUE` the `int` overflow gives `Integer.MIN_VALUE`. A valid counter stays valid and differs from the id just issued |
| `IdGenerator.GenerateViewIdCycles` | library/src/main/java/com/flipkart/android/proteus/toolbox/IdGeneratorImpl.java:93-96 | on a counter in 1..`0x00FFFFFF` the step is the cyclic successor `c % 0x00FFFFFF + 1` |
| `IdGenerator.GetUnique` | library/src/main/java/com/flipkart/android/proteus/toolbox/IdGeneratorImpl.java:70-78 | a known key gets its recorded id and the state is unchanged. A new key gets the old counter value, and the counter advances as `generateViewId` does. The table gains exactly that key, mapped to the id returned, and every other entry keeps its id |
| `IdGenerator.WrapsToOne` | library/src/main/java/com/flipkart/android/proteus/toolbox/IdGeneratorImpl.java:93-96 | a new key issued when the counter is at `0x00FFFFFF` gets id `0x00FFFFFF`, and the counter becomes 1, not 0 |
| `IdGenerator.GetUniqueIdempotent` | library/src/main/java/com/flipkart/android/proteus/toolbox/IdGeneratorImpl.java:70-78 | asking again for the same key returns the same id and leaves the state as it was |
| `IdGenerator.GetUniqueKeepsRange` | library/src/main/java/com/flipkart/android/proteus/toolbox/IdGeneratorImpl.java:70-101 | from a state whose counter and ids are all in 1..`0x00FFFFFF`, the id issued and the new state stay in that range |
| `IdGenerator.GetUniqueKeepsDense` | library/src/main/java/com/flipkart/android/proteus/toolbox/IdGeneratorImpl.java:70-101 | before the wrap, the recorded ids stay pairwise distinct and are exactly 1..counter-1. A new key gets an id that no recorded key has |
| `IdGenerator.WrapReusesIds` | library/src/main/java/com/flipkart/android/proteus/toolbox/IdGeneratorImpl.java:93-96 | after the rollover ids are reused: in any state whose counter is `0x00FFFFFF` and where some key holds id 1, the second of two distinct new keys gets that same id 1 |
| `AllocationRuns.Run` | library/src/main/java/com/flipkart/android/proteus/toolbox/IdGeneratorImpl.java:70-78 | a sequence of calls returns exactly one id per call |
| `AllocationRuns.RunRecords` | library/src/main/java/com/flipkart/android/proteus/toolbox/IdGeneratorImpl.java:70-78 | after a sequence of calls, the table's keys are the old keys plus the requested ones. Every old entry keeps its id, and each call's returned id is the final table's entry for its key |
| `AllocationRuns.RunKeepsRange` | library/src/main/java/com/flipkart/android/proteus/toolbox/IdGeneratorImpl.java:88-101 | from an in-range state, every id of any sequence of calls lies in 1..`0x00FFFFFF`, so 0 is never returned, and the state stays in range |
| `AllocationRuns.RunKeepsDense` | library/src/main/java/com/flipkart/android/proteus/toolbox/IdGeneratorImpl.java:70-101 | when fewer than `0x00FFFFFF` distinct keys are involved in all, the counter never wraps and the no-wrap invariant holds at the end |
| `AllocationRuns.RunIdsUnique` | library/src/main/java/com/flipkart/android/proteus/toolbox/IdGeneratorImpl.java:70-101 | in such a run, two calls return the same id if and only if they passed the same key, and every id is below the final counter |
| `AllocationRuns.FreshRunIdsUnique` | library/src/main/java/com/flipkart/android/proteus/toolbox/IdGeneratorImpl.java:27-29 | from a new allocator with fewer than `0x00FFFFFF` distinct keys, ids coincide exactly when keys do, and every id lies in 1..n, where n is the number of distinct keys |
| `AllocationRuns.RestoredRunsAlike` | library/src/main/java/com/flipkart/android/proteus/toolbox/IdGeneratorImpl.java:31-59 | an allocator rebuilt from its own parcel answers every later sequence of calls exactly as the original would, and keys seen before the save keep their ids |
| `AllocationRuns.RestoredCounterCanIssueZero` | library/src/main/java/com/flipkart/android/proteus/toolbox/IdGeneratorImpl.java:32 | the counter read from a parcel is not range-checked: with a counter of -1 the allocator issues -1 and then 0 |
| `IdParcel.EncodeEntries` | library/src/main/java/com/flipkart/android/proteus/toolbox/IdGeneratorImpl.java:58 | each entry is written as the key token followed by the id token, in iteration order |
| `IdParcel.Encode` | library/src/main/java/com/flipkart/android/proteus/toolbox/IdGeneratorImpl.java:56-59 | the parcel holds the counter, then the entry count, then every key with its id in the given iteration order |
| `IdParcel.ReadInt` | library/src/main/java/com/flipkart/android/proteus/toolbox/IdGeneratorImpl.java:32 | reading an `int` succeeds exactly when the next token is an `int`, and it consumes just that token |
| `IdParcel.DecodeEntriesLastWins` | library/src/main/java/com/flipkart/android/proteus/toolbox/IdGeneratorImpl.java:33 | following Android's `readMap`, which puts each pair into the map in turn: when pair j is followed by no later pair for the same key, the decoded map holds that key with pair j's id, whatever pairs lie in between |
| `IdParcel.DecodeEntriesKeepsUnread` | library/src/main/java/com/flipkart/android/proteus/toolbox/IdGeneratorImpl.java:33 | a key already in the map that none of the pairs read keeps its id |
| `IdParcel.DecodeEntriesRepeatedKey` | library/src/main/java/com/flipkart/android/proteus/toolbox/IdGeneratorImpl.java:33 | the pairs a:1, b:2, a:3 decode to a:3 and b:2, with no tokens left over |
| `IdParcel.DecodeEntries` | library/src/main/java/com/flipkart/android/proteus/toolbox/IdGeneratorImpl.java:33 | following Android's `readMap` loop, a count of 0 or less reads nothing. Otherwise the first 2n tokens are read, and what is left is exactly the tokens after them. Keys already in the map stay present, and which id each key ends with is stated by `DecodeEntriesLastWins` |
| `IdParcel.Decode` | library/src/main/java/com/flipkart/android/proteus/toolbox/IdGeneratorImpl.java:31-34 | on success, the restored counter is the parcel's first `int`, taken without a range check |
| `IdParcel.EnumerationLength` | library/src/main/java/com/flipkart/android/proteus/toolbox/IdGeneratorImpl.java:58 | an iteration order of the table lists exactly as many keys as the table has, so the count written matches the entries written |
| `IdParcel.EnumerationExists` | library/src/main/java/com/flipkart/android/proteus/toolbox/IdGeneratorImpl.java:56-59 | every table has an iteration order, so `Encode`'s `Enumerates` precondition can always be met |
| `IdParcel.EntriesRoundTrip` | library/src/main/java/com/flipkart/android/proteus/toolbox/IdGeneratorImpl.java:33 | reading back the entries written for an order adds exactly the table's entries for those keys and leaves the following tokens unread |
| `IdParcel.RoundTrip` | library/src/main/java/com/flipkart/android/proteus/toolbox/IdGeneratorImpl.java:31-59 | rebuilding from what `writeToParcel` wrote gives the same counter and the same table for any iteration order, and leaves the rest of the parcel unread |

## Left out

- Thread safety: the `AtomicInteger` compare-and-set retry loop and `synchronized` on `getUnique`. Each call is one sequential step, which is the outcome of an uncontended compare-and-set.
- Android's `Parcel.writeMap`/`readMap` are not part of this model, but the model follows them in three ways. The tokens are written as the entry count followed by key/id pairs. When reading, a count of 0 or less reads no entries. A key that appears more than once ends with the id of its last pair (`IdParcel.DecodeEntriesLastWins`, `IdParcel.DecodeEntriesRepeatedKey`). These rules come from Android's parcel code, not from `IdGeneratorImpl.java`.
- The byte encoding of a parcel. The type tag that `writeValue` writes before each value is replaced by a typed token (`IntTok`, `StrTok`).
- Reading past the end of a parcel. Android's `readInt` returns 0 there, but the model returns `Truncated`. A token of the wrong type gives `UnexpectedToken`.
- IdParcel.Encode: stated only for tables of at most `Integer.MAX_VALUE` entries. The entry count is written as a Java `int` (`HashMap.size()`), and a larger table would not fit in memory.
- IdParcel.RoundTrip: stated only for tables of at most `Integer.MAX_VALUE` entries, for the same reason as `IdParcel.Encode`.
- AllocationRuns.RestoredRunsAlike: stated only for tables of at most `Integer.MAX_VALUE` entries, for the same reason as `IdParcel.Encode`.
- `HashMap` iteration order is unspecified, so `Encode` takes the order as a parameter. The round trip is stated at the level of the table, not the exact token sequence.
- `null` keys and `null` values in the `HashMap`: keys are strings and ids are `int`s. A parcel carrying a `null` id, which `getUnique` would treat as absent, is not modelled.
- `ID_MAP_CLASS_LOADER`/`TypeToken`, `CREATOR.newArray`, `describeContents` (always 0) and the `flags` argument of `writeToParcel`: reflection and `Parcelable` boilerplate with no effect on the allocator.
- `NetworkDrawableHelper.java`: asynchronous and blocking bitmap loading with a 10-second timeout, callbacks and float density scaling. This is I/O orchestration and not part of this model.
- Both `RatingBarParser.java` files: thin handlers that call Android widget setters with parsed ints and floats. The parsing helpers and the handler registry they depend on are not part of this model.
- `AspectRatioFrameLayout.java`: a subclass that only forwards its constructors.
- `InvalidDataPathException.java`: its only logic builds the message `<path> is invalid.`.

=== FILE: allocation_runs.dfy ===
/**
 Sequences of `getUnique` calls on one allocator: what a run of calls hands
 out, which entries it leaves behind, and the uniqueness of ids as long as
 the counter has not wrapped.
 */
module AllocationRuns {
  import opened JavaInt
  import opened IdGenerator
  import opened IdParcel

  /** The ids handed out by a run of calls, in call order, and the final state. */
  datatype Trace = Trace(ids: seq<int32>, gen: Generator)

  /** Calls `getUnique` for each key in turn, threading the state through. */
  function Run(g: Generator, keys: seq<string>): (t: Trace)
    ensures |t.ids| == |keys|
    decreases |keys|
  {
    if |keys| == 0 then
      Trace([], g)
    else
      var first := GetUnique(g, keys[0]);
      var tail := Run(first.gen, keys[1..]);
      Trace([first.id] + tail.ids, tail.gen)
  }

  /** What a run leaves in the table: the old keys plus the requested ones,
      every old entry unchanged, and for each call the id it returned. */
  lemma {:induction false} RunRecords(g: Generator, keys: seq<string>)
    ensures Run(g, keys).gen.ids.Keys == g.ids.Keys + KeysOf(keys)
    ensures forall k :: k in g.ids ==> Run(g, keys).gen.ids[k] == g.ids[k]
    ensures forall i :: 0 <= i < |keys| ==> Run(g, keys).gen.ids[keys[i]] == Run(g, keys).ids[i]
    decreases |keys|
  {
    if |keys| > 0 {
      var first := GetUnique(g, keys[0]);
      var tail := Run(first.gen, keys[1..]);
      RunRecords(first.gen, keys[1..]);
      KeysOfCons(keys);
      var t := Run(g, keys);
      assert t == Trace([first.id] + tail.ids, tail.gen);
      forall i | 0 <= i < |keys|
        ensures t.gen.ids[keys[i]] == t.ids[i]
      {
        if i > 0 {
          assert keys[i] == keys[1..][i - 1];
          assert t.ids[i] == tail.ids[i - 1];
        }
      }
    }
  }

  /** Over any run from a valid state, every id handed out is valid and the
      state stays valid. */
  lemma {:induction false} RunKeepsRange(g: Generator, keys: seq<string>)
    requires InRange(g)
    ensures InRange(Run(g, keys).gen)
    ensures forall i :: 0 <= i < |keys| ==> ValidId(Run(g, keys).ids[i])
    decreases |keys|
  {
    if |keys| > 0 {
      GetUniqueKeepsRange(g, keys[0]);
      RunKeepsRange(GetUnique(g, keys[0]).gen, keys[1..]);
      var t := Run(g, keys);
      var tail := Run(GetUnique(g, keys[0]).gen, keys[1..]);
      assert t.ids == [GetUnique(g, keys[0]).id] + tail.ids;
      assert forall i :: 1 <= i < |keys| ==> t.ids[i] == tail.ids[i - 1];
    }
  }

  /** A set contained in another is no larger. */
  lemma SubsetCard(a: set<string>, b: set<string>)
    requires a <= b
    ensures |a| <= |b|
  {
    assert b == a + (b - a);
  }

  /** A run that involves fewer than MaxId distinct keys in all never wraps
      the counter: the state stays dense. */
  lemma {:induction false} RunKeepsDense(g: Generator, keys: seq<string>)
    requires Dense(g)
    requires |g.ids.Keys + KeysOf(keys)| < MaxId
    ensures Dense(Run(g, keys).gen)
    decreases |keys|
  {
    if |keys| > 0 {
      var k := keys[0];
      var first := GetUnique(g, k);
      RunRecords(first.gen, keys[1..]);
      KeysOfCons(keys);
      if k !in g.ids {
        SubsetCard(g.ids.Keys + {k}, g.ids.Keys + KeysOf(keys));
        assert |g.ids.Keys + {k}| == |g.ids| + 1;
      }
      GetUniqueKeepsDense(g, k);
      assert first.gen.ids.Keys + KeysOf(keys[1..]) <= g.ids.Keys + KeysOf(keys);
      SubsetCard(first.gen.ids.Keys + KeysOf(keys[1..]), g.ids.Keys + KeysOf(keys));
      RunKeepsDense(first.gen, keys[1..]);
    }
  }

  /** Uniqueness before wrap: in such a run two calls hand out the same id
      exactly when they were made with the same key, and every id lies below
      the final counter. */
  lemma RunIdsUnique(g: Generator, keys: seq<string>)
    requires Dense(g)
    requires |g.ids.Keys + KeysOf(keys)| < MaxId
    ensures forall i, j :: 0 <= i < |keys| && 0 <= j < |keys| ==>
      (Run(g, keys).ids[i] == Run(g, keys).ids[j] <==> keys[i] == keys[j])
    ensures forall i :: 0 <= i < |keys| ==> 1 <= Run(g, keys).ids[i] < Run(g, keys).gen.next
  {
    RunKeepsDense(g, keys);
    RunRecords(g, keys);
    var t := Run(g, keys);
    var final := t.gen.ids;
    assert Injective(final);
    forall i, j | 0 <= i < |keys| && 0 <= j < |keys|
      ensures t.ids[i] == t.ids[j] <==> keys[i] == keys[j]
    {
      assert t.ids[i] == final[keys[i]] && t.ids[j] == final[keys[j]];
    }
    forall i | 0 <= i < |keys|
      ensures 1 <= t.ids[i] < t.gen.next
    {
      assert keys[i] in final;
    }
  }

  /** From a fresh allocator, fewer than MaxId distinct keys receive pairwise
      distinct ids 1 .. n, where n is the number of distinct keys. */
  lemma FreshRunIdsUnique(keys: seq<string>)
    requires |KeysOf(keys)| < MaxId
    ensures forall i, j :: 0 <= i < |keys| && 0 <= j < |keys| ==>
      (Run(Fresh(), keys).ids[i] == Run(Fresh(), keys).ids[j] <==> keys[i] == keys[j])
    ensures forall i :: 0 <= i < |keys| ==> 1 <= Run(Fresh(), keys).ids[i] <= |KeysOf(keys)|
  {
    var g := Fresh();
    assert g.ids.Keys + KeysOf(keys) == KeysOf(keys);
    RunIdsUnique(g, keys);
    RunKeepsDense(g, keys);
    RunRecords(g, keys);
    var final := Run(g, keys).gen;
    assert final.ids.Keys == KeysOf(keys);
    assert final.next - 1 == |KeysOf(keys)|;
  }

  /** An allocator restored from what `writeToParcel` wrote answers every
      later sequence of `getUnique` calls exactly as the original would, so
      keys seen before the save keep their ids. */
  lemma RestoredRunsAlike(g: Generator, order: seq<string>, rest: seq<Token>, keys: seq<string>)
    requires Enumerates(order, g.ids)
    requires |g.ids| <= MaxInt32
    ensures Decode(Encode(g, order) + rest).Success?
    ensures Run(Decode(Encode(g, order) + rest).value.gen, keys) == Run(g, keys)
    ensures forall i :: 0 <= i < |keys| && keys[i] in g.ids ==>
      Run(Decode(Encode(g, order) + rest).value.gen, keys).ids[i] == g.ids[keys[i]]
  {
    RoundTrip(g, order, rest);
    RunRecords(g, keys);
  }

  /** The parcel constructor does not check the counter it reads: restored
      with a counter of -1, the allocator hands out id 0 to its second new
      key, which no allocator started by the default constructor does. */
  lemma RestoredCounterCanIssueZero()
    ensures Decode([IntTok(-1), IntTok(0)]) == Success(Restored(Generator(-1, map[]), []))
    ensures Run(Generator(-1, map[]), ["a", "b"]).ids == [-1, 0]
  {
  }
}

=== FILE: id_generator.dfy ===
/**
 The unique-id allocator `IdGeneratorImpl`: a table from string keys to view
 ids plus the counter that supplies the next id. Each operation is a pure
 function from the allocator state to the id it hands out and the new state.
 The compare-and-set retry loop and the `synchronized` modifier of the Java
 class only serve thread safety; sequentially the compare-and-set succeeds on
 its first attempt, so every call is one atomic transition here.
 */
module IdGenerator {
  import opened JavaInt

  /** Largest id the allocator hands out: ids generated at build time have a
      non-zero high byte, so generated ids stay below that. */
  const MaxId: int32 := 0x00FF_FFFF

  /** The allocator state: the counter `next` (the next id to hand out) and
      the key-to-id table. */
  datatype Generator = Generator(next: int32, ids: map<string, int32>)

  /** An id handed out together with the state after handing it out. */
  datatype Issued = Issued(id: int32, gen: Generator)

  /** One step of the counter: the id handed out and the counter left behind. */
  datatype Step = Step(id: int32, next: int32)

  /** An id the allocator may hand out: positive, never 0, below the build-time ids. */
  predicate ValidId(x: int) {
    1 <= x <= MaxId
  }

  /** The counter and every recorded id are valid ids. */
  predicate InRange(g: Generator) {
    && ValidId(g.next)
    && forall k :: k in g.ids ==> ValidId(g.ids[k])
  }

  /** No two keys share an id. */
  predicate Injective(ids: map<string, int32>) {
    forall k, k' :: k in ids && k' in ids && k != k' ==> ids[k] != ids[k']
  }

  /** The state of an allocator that has not wrapped: the recorded ids are
      pairwise distinct, all lie in [1, next), and there are exactly
      next - 1 of them, so they are precisely the ids 1 .. next - 1. */
  predicate Dense(g: Generator) {
    && ValidId(g.next)
    && (forall k :: k in g.ids ==> 1 <= g.ids[k] < g.next)
    && Injective(g.ids)
    && |g.ids| == g.next - 1
  }

  /** The distinct keys of a sequence of keys. */
  function KeysOf(keys: seq<string>): set<string> {
    set k | k in keys
  }

  /** The keys of a non-empty sequence are its first key and the keys of the rest. */
  lemma KeysOfCons(keys: seq<string>)
    requires |keys| > 0
    ensures KeysOf(keys) == {keys[0]} + KeysOf(keys[1..])
  {
  }

  /** The default constructor: an empty table and a counter of 1. */
  function Fresh(): (g: Generator)
    ensures |g.ids| == 0
    ensures Dense(g) && InRange(g)
    ensures forall k :: GetUnique(g, k).id == 1
  {
    Generator(1, map[])
  }

  /** One successful pass of the compare-and-set loop: the current counter is
      the id handed out, and the counter moves on by Java `int` addition,
      rolling over to 1 (never 0) once it passes MaxId. */
  function GenerateViewId(counter: int32): (r: Step)
    ensures r.id == counter
    ensures counter < MaxId ==> r.next == counter + 1
    ensures MaxId <= counter < MaxInt32 ==> r.next == 1
    ensures counter == MaxInt32 ==> r.next == MinInt32
    ensures ValidId(counter) ==> ValidId(r.next) && r.next != r.id
  {
    var newValue := Add(counter, 1);
    Step(counter, if newValue > MaxId then 1 else newValue)
  }

  /** `getUnique`: the id already recorded for `key`, or else a freshly
      generated id, which is recorded for `key`. */
  function GetUnique(g: Generator, key: string): (r: Issued)
    ensures key in g.ids ==> r == Issued(g.ids[key], g)
    ensures key !in g.ids ==> r.id == g.next && r.gen.next == GenerateViewId(g.next).next
    ensures r.gen.ids.Keys == g.ids.Keys + {key}
    ensures key in r.gen.ids && r.gen.ids[key] == r.id
    ensures forall k :: k in g.ids ==> r.gen.ids[k] == g.ids[k]
  {
    if key in g.ids then
      Issued(g.ids[key], g)
    else
      var step := GenerateViewId(g.next);
      Issued(step.id, Generator(step.next, g.ids[key := step.id]))
  }

  /** On a valid counter, stepping it is the cyclic successor on 1 .. MaxId. */
  lemma GenerateViewIdCycles(counter: int32)
    requires ValidId(counter)
    ensures GenerateViewId(counter).next == counter % MaxId + 1
  {
  }

  /** Once id MaxId has been handed out the counter is back at 1, never 0. */
  lemma WrapsToOne(g: Generator, key: string)
    requires g.next == MaxId && key !in g.ids
    ensures GetUnique(g, key).id == MaxId
    ensures GetUnique(g, key).gen.next == 1
  {
  }

  /** Calling `getUnique` again with the same key hands out the same id and
      changes nothing. */
  lemma GetUniqueIdempotent(g: Generator, key: string)
    ensures GetUnique(GetUnique(g, key).gen, key) == GetUnique(g, key)
  {
  }

  /** A valid counter and valid recorded ids stay valid, and the id handed out
      is valid. */
  lemma GetUniqueKeepsRange(g: Generator, key: string)
    requires InRange(g)
    ensures InRange(GetUnique(g, key).gen)
    ensures ValidId(GetUnique(g, key).id)
  {
  }

  /** Before the counter wraps, a new key gets an id no other key has, and
      the state stays dense. */
  lemma GetUniqueKeepsDense(g: Generator, key: string)
    requires Dense(g)
    requires key in g.ids || g.next < MaxId
    ensures Dense(GetUnique(g, key).gen)
    ensures key !in g.ids ==> forall k :: k in g.ids ==> g.ids[k] != GetUnique(g, key).id
  {
  }

  /** After the wrap ids are reused: with some key holding id 1 and the
      counter at MaxId, the second of two new keys receives that same id. */
  lemma WrapReusesIds(g: Generator, k: string, k1: string, k2: string)
    requires g.next == MaxId
    requires k in g.ids && g.ids[k] == 1
    requires k1 !in g.ids && k2 !in g.ids && k1 != k2
    ensures GetUnique(GetUnique(g, k1).gen, k2).id == g.ids[k]
  {
  }
}

=== FILE: java_int.dfy ===
/**
 Java's 32-bit `int`: the type of the id counter, of the ids themselves and of
 the entry count a parcel carries. Dafny integers are unbounded, so the
 two's-complement wrap-around of Java's `+` is written out here.
 */
module JavaInt {

  const MinInt32: int := -0x8000_0000
  const MaxInt32: int := 0x7FFF_FFFF

  type int32 = x: int | MinInt32 <= x <= MaxInt32

  /** Java's `a + b` on two `int`s: the mathematical sum reduced into the
      32-bit range, so overflow past either end wraps to the other end. */
  function Add(a: int32, b: int32): (r: int32)
    ensures MinInt32 <= a + b <= MaxInt32 ==> r == a + b
    ensures a + b > MaxInt32 ==> r == a + b - 0x1_0000_0000
    ensures a + b < MinInt32 ==> r == a + b + 0x1_0000_0000
  {
    var s := a + b - MinInt32;
    assert -0x8000_0000 <= s < 0x1_8000_0000;
    (s % 0x1_0000_0000) + MinInt32
  }
}

=== FILE: parcel.dfy ===
/**
 Saving and restoring the allocator through a parcel. The parcel is modelled
 as a sequence of typed tokens; `writeToParcel` writes the counter and then
 the table, and the parcel constructor reads them back in the same order.
 The table is written in the layout of Android's `Parcel.writeMap`: the entry
 count, then key and id of each entry in the map's iteration order. That
 order is unspecified for a `HashMap`, so it is a parameter here.
 */
module IdParcel {
  import opened JavaInt
  import opened IdGenerator

  /** One value written to a parcel. */
  datatype Token = IntTok(i: int32) | StrTok(s: string)

  /** Why a token sequence cannot be read back as an allocator. */
  datatype DecodeError = Truncated | UnexpectedToken(at: Token)

  datatype Result<T> = Success(value: T) | Failure(error: DecodeError)

  /** An allocator read from a parcel, and the tokens left after it. */
  datatype Restored = Restored(gen: Generator, rest: seq<Token>)

  /** `order` lists every key of `m` exactly once: a possible iteration
      order of the map. */
  predicate Enumerates(order: seq<string>, m: map<string, int32>) {
    && (forall i, j :: 0 <= i < j < |order| ==> order[i] != order[j])
    && (forall k :: k in order ==> k in m)
    && (forall k :: k in m ==> k in order)
  }

  /** The key/id pairs of the keys in `order`, in that order. */
  function EncodeEntries(ids: map<string, int32>, order: seq<string>): (ts: seq<Token>)
    requires forall k :: k in order ==> k in ids
    ensures |ts| == 2 * |order|
    ensures forall i :: 0 <= i < |order| ==>
      ts[2 * i] == StrTok(order[i]) && ts[2 * i + 1] == IntTok(ids[order[i]])
  {
    if |order| == 0 then []
    else [StrTok(order[0]), IntTok(ids[order[0]])] + EncodeEntries(ids, order[1..])
  }

  /** `writeToParcel`: the counter, then the entry count, then the entries. */
  function Encode(g: Generator, order: seq<string>): (ts: seq<Token>)
    requires Enumerates(order, g.ids)
    requires |g.ids| <= MaxInt32
    ensures |ts| == 2 + 2 * |order|
    ensures ts[0] == IntTok(g.next) && ts[1] == IntTok(|g.ids|)
    ensures forall i :: 0 <= i < |order| ==>
      ts[2 + 2 * i] == StrTok(order[i]) && ts[3 + 2 * i] == IntTok(g.ids[order[i]])
  {
    [IntTok(g.next), IntTok(|g.ids|)] + EncodeEntries(g.ids, order)
  }

  /** Reads one `int` token. */
  function ReadInt(ts: seq<Token>): (r: Result<(int32, seq<Token>)>)
    ensures r.Success? <==> |ts| > 0 && ts[0].IntTok?
    ensures r.Success? ==> ts == [IntTok(r.value.0)] + r.value.1
  {
    if |ts| == 0 then Failure(Truncated)
    else if !ts[0].IntTok? then Failure(UnexpectedToken(ts[0]))
    else Success((ts[0].i, ts[1..]))
  }

  /** Reads `n` key/id pairs into `acc`; a later pair for a key replaces an
      earlier one, and a count of 0 or less reads nothing. */
  function DecodeEntries(ts: seq<Token>, n: int, acc: map<string, int32>): (r: Result<(map<string, int32>, seq<Token>)>)
    ensures n <= 0 ==> r == Success((acc, ts))
    ensures r.Success? ==> acc.Keys <= r.value.0.Keys
    ensures r.Success? && n > 0 ==> |ts| >= 2 * n && r.value.1 == ts[2 * n..]
    decreases n
  {
    if n <= 0 then Success((acc, ts))
    else if |ts| < 2 then Failure(Truncated)
    else if !ts[0].StrTok? then Failure(UnexpectedToken(ts[0]))
    else if !ts[1].IntTok? then Failure(UnexpectedToken(ts[1]))
    else DecodeEntries(ts[2..], n - 1, acc[ts[0].s := ts[1].i])
  }

  /** The parcel constructor: reads the counter as it is, without checking
      its range, then the table into an empty map. */
  function Decode(ts: seq<Token>): (r: Result<Restored>)
    ensures r.Success? ==> |ts| >= 2 && ts[0] == IntTok(r.value.gen.next)
  {
    match ReadInt(ts)
    case Failure(e) => Failure(e)
    case Success((next, afterNext)) =>
      match ReadInt(afterNext)
      case Failure(e) => Failure(e)
      case Success((count, afterCount)) =>
        match DecodeEntries(afterCount, count, map[])
        case Failure(e) => Failure(e)
        case Success((ids, rest)) => Success(Restored(Generator(next, ids), rest))
  }

  /** The entries of `ids` for the keys in `ks`. */
  function Restrict(ids: map<string, int32>, ks: set<string>): map<string, int32> {
    map k | k in ks && k in ids :: ids[k]
  }

  /** A list without repeats is as long as its set of elements is large. */
  lemma {:induction false} DistinctLength(order: seq<string>)
    requires forall i, j :: 0 <= i < j < |order| ==> order[i] != order[j]
    ensures |KeysOf(order)| == |order|
    decreases |order|
  {
    if |order| > 0 {
      DistinctLength(order[1..]);
      KeysOfCons(order);
      assert order[0] !in KeysOf(order[1..]);
    }
  }

  /** An enumeration of a map is exactly as long as the map. */
  lemma EnumerationLength(order: seq<string>, m: map<string, int32>)
    requires Enumerates(order, m)
    ensures |order| == |m|
  {
    DistinctLength(order);
    assert KeysOf(order) == m.Keys;
  }

  /** Every table has an iteration order, so every allocator can be written. */
  lemma {:induction false} EnumerationExists(m: map<string, int32>)
    ensures exists order :: Enumerates(order, m)
    decreases |m|
  {
    if |m| == 0 {
      assert Enumerates([], m);
    } else {
      var k :| k in m;
      var smaller := m - {k};
      assert |smaller| == |m| - 1 by {
        assert smaller.Keys == m.Keys - {k};
      }
      EnumerationExists(smaller);
      var order :| Enumerates(order, smaller);
      assert Enumerates([k] + order, m) by {
        forall i, j | 0 <= i < j < |[k] + order|
          ensures ([k] + order)[i] != ([k] + order)[j]
        {
          if i > 0 { assert ([k] + order)[i] == order[i - 1]; }
          assert ([k] + order)[j] == order[j - 1];
        }
        forall x ensures x in [k] + order <==> x in m {
          assert x in [k] + order <==> x == k || x in order;
        }
      }
    }
  }

  /** Reading a key/id pair and then `n - 1` more is reading `n` pairs. */
  lemma DecodeEntriesStep(k: string, v: int32, ts: seq<Token>, n: int, acc: map<string, int32>)
    requires n > 0
    ensures DecodeEntries([StrTok(k), IntTok(v)] + ts, n, acc) == DecodeEntries(ts, n - 1, acc[k := v])
  {
  }

  /** A key that none of the `n` pairs read keeps the id it had in `acc`. */
  lemma {:induction false} DecodeEntriesKeepsUnread(ts: seq<Token>, n: int, acc: map<string, int32>, k: string)
    requires DecodeEntries(ts, n, acc).Success?
    requires k in acc
    requires forall j :: 0 <= j < n ==> ts[2 * j] != StrTok(k)
    ensures k in DecodeEntries(ts, n, acc).value.0
    ensures DecodeEntries(ts, n, acc).value.0[k] == acc[k]
    decreases n
  {
    if n > 0 {
      var acc' := acc[ts[0].s := ts[1].i];
      assert ts[2 * 0] != StrTok(k);
      forall j | 0 <= j < n - 1 ensures ts[2..][2 * j] != StrTok(k) {
        assert ts[2..][2 * j] == ts[2 * (j + 1)];
      }
      DecodeEntriesKeepsUnread(ts[2..], n - 1, acc', k);
    }
  }

  /** Each key ends up with the id of the last pair that names it: if pair
      `j` is followed by no other pair for the same key, its id is the one
      in the decoded map, whatever pairs lie in between. */
  lemma {:induction false} DecodeEntriesLastWins(ts: seq<Token>, n: int, acc: map<string, int32>, j: int)
    requires DecodeEntries(ts, n, acc).Success?
    requires 0 <= j < n
    requires forall j' :: j < j' < n ==> ts[2 * j'] != ts[2 * j]
    ensures ts[2 * j].StrTok? && ts[2 * j + 1].IntTok?
    ensures ts[2 * j].s in DecodeEntries(ts, n, acc).value.0
    ensures DecodeEntries(ts, n, acc).value.0[ts[2 * j].s] == ts[2 * j + 1].i
    decreases n
  {
    var acc' := acc[ts[0].s := ts[1].i];
    if j == 0 {
      forall j' | 0 <= j' < n - 1 ensures ts[2..][2 * j'] != StrTok(ts[0].s) {
        assert ts[2..][2 * j'] == ts[2 * (j' + 1)];
      }
      DecodeEntriesKeepsUnread(ts[2..], n - 1, acc', ts[0].s);
    } else {
      forall j' | j - 1 < j' < n - 1 ensures ts[2..][2 * j'] != ts[2..][2 * (j - 1)] {
        assert ts[2..][2 * j'] == ts[2 * (j' + 1)];
      }
      DecodeEntriesLastWins(ts[2..], n - 1, acc', j - 1);
      assert ts[2..][2 * (j - 1)] == ts[2 * j];
      assert ts[2..][2 * (j - 1) + 1] == ts[2 * j + 1];
    }
  }

  /** The concrete case: pairs a:1, b:2, a:3 decode to a:3, b:2. */
  lemma DecodeEntriesRepeatedKey()
    ensures DecodeEntries([StrTok("a"), IntTok(1), StrTok("b"), IntTok(2), StrTok("a"), IntTok(3)], 3, map[])
         == Success((map["a" := 3, "b" := 2], []))
  {
    var ts := [StrTok("a"), IntTok(1), StrTok("b"), IntTok(2), StrTok("a"), IntTok(3)];
    assert ts[2..] == [StrTok("b"), IntTok(2), StrTok("a"), IntTok(3)];
    assert ts[2..][2..] == [StrTok("a"), IntTok(3)];
    assert ts[2..][2..][2..] == [];
    assert map["a" := 1]["b" := 2]["a" := 3] == map["a" := 3, "b" := 2];
  }

  /** Adding the entry for `k` and then those for `ks` is adding those for `{k} + ks`. */
  lemma RestrictCons(ids: map<string, int32>, k: string, ks: set<string>, acc: map<string, int32>)
    requires k in ids
    ensures acc[k := ids[k]] + Restrict(ids, ks) == acc + Restrict(ids, {k} + ks)
  {
  }

  /** Reading back the entries written for `order` adds, on top of `acc`,
      the entries of `ids` for exactly the keys of `order`, and leaves the
      tokens that follow untouched. */
  lemma {:induction false} EntriesRoundTrip(ids: map<string, int32>, order: seq<string>,
                                            acc: map<string, int32>, rest: seq<Token>)
    requires forall k :: k in order ==> k in ids
    ensures DecodeEntries(EncodeEntries(ids, order) + rest, |order|, acc)
         == Success((acc + Restrict(ids, KeysOf(order)), rest))
    decreases |order|
  {
    if |order| == 0 {
      assert EncodeEntries(ids, order) + rest == rest;
      assert KeysOf(order) == {};
      assert acc + Restrict(ids, KeysOf(order)) == acc;
    } else {
      var k0 := order[0];
      var tail := EncodeEntries(ids, order[1..]) + rest;
      assert EncodeEntries(ids, order) + rest == [StrTok(k0), IntTok(ids[k0])] + tail;
      DecodeEntriesStep(k0, ids[k0], tail, |order|, acc);
      EntriesRoundTrip(ids, order[1..], acc[k0 := ids[k0]], rest);
      KeysOfCons(order);
      RestrictCons(ids, k0, KeysOf(order[1..]), acc);
    }
  }

  /** A parcel that starts with a counter and an entry count whose entries
      read back successfully restores an allocator with that counter. */
  lemma DecodeHeader(next: int32, count: int32, ts: seq<Token>, ids: map<string, int32>, rest: seq<Token>)
    requires DecodeEntries(ts, count, map[]) == Success((ids, rest))
    ensures Decode([IntTok(next), IntTok(count)] + ts) == Success(Restored(Generator(next, ids), rest))
  {
  }

  /** Restricting a table to the keys of one of its enumerations gives the whole table. */
  lemma RestrictEnumeration(order: seq<string>, m: map<string, int32>)
    requires Enumerates(order, m)
    ensures map[] + Restrict(m, KeysOf(order)) == m
  {
  }

  /** Serialisation round trip: restoring from what `writeToParcel` wrote
      gives back the same counter and the same table, whatever the iteration
      order, and leaves whatever follows in the parcel unread. */
  lemma RoundTrip(g: Generator, order: seq<string>, rest: seq<Token>)
    requires Enumerates(order, g.ids)
    requires |g.ids| <= MaxInt32
    ensures Decode(Encode(g, order) + rest) == Success(Restored(g, rest))
  {
    EnumerationLength(order, g.ids);
    var count: int32 := |g.ids|;
    var entries := EncodeEntries(g.ids, order) + rest;
    assert Encode(g, order) + rest == [IntTok(g.next), IntTok(count)] + entries;
    EntriesRoundTrip(g.ids, order, map[], rest);
    RestrictEnumeration(order, g.ids);
    DecodeHeader(g.next, count, entries, g.ids, rest);
  }
}
